=== FILE: README.md ===
# tiny-store, modelled in Dafny

tiny-store is a small observable state container: one `Store` class that holds a
state object wrapped in a `Proxy`, a table of named actions, a table of named
mutations, a list of subscriber callbacks and a diagnostic status flag
(`"resting"`, `"action"`, `"mutation"`). Writing a key of the state through the
proxy notifies every subscriber; `commit` runs a mutation and replaces the state
with its result; `dispatch` runs an action, which in turn commits mutations.

This project models the class as a deterministic state machine:

- `js_values.dfy` (module `JsValues`): the values the store handles, the
  `typeof … === "function"` test (`Entry`) and the lookup of a name in an
  action or mutation table (`Lookup`).
- `store.dfy` (module `TinyStore`): the `Store` record and one pure transition per
  public operation — `Construct`, `Dispatch`, `Commit`, `ProcessCallbacks`,
  `Subscribe` — plus `Set`, the proxy's `set` trap made an explicit operation.
  `Construct` returns the new `Store`; every other transition returns an `Outcome`:
  the new store and the boolean the method returns.
  What the outside world observes is appended to the store's `log`: an `Invoked`
  event each time an action function is called, a `Notified` event each time a
  callback is called. A `wrapped` flag records whether `state` is still the proxy.
- `store_properties.dfy` (module `StoreProperties`): properties relating several
  calls — the invariant linking the status flag and the proxy, the permanent loss
  of notifications after the first successful commit, the state an action
  produces, the notifications it causes, how many times an action is called, subscriber order, and the worked
  counter examples.

An action is modelled as a synchronous script: given its payload, the list of
commits and state writes it performs on the store it is handed. A write either goes
to `store.state` as it is at that moment, or through a reference to the
constructor's proxy that the action kept from earlier. A mutation
is a pure function from the current state and the payload to the new state.

The source's defect is modelled as written. `commit` stores the mutation's plain
result in place of the proxy (index.ts:87). After the first successful commit, no
write to `store.state` reaches any subscriber, and no write to `store.state` resets
the status from `"mutation"`. `WriteAfterCommitIsSilent`,
`UnwrappedStoreNeverNotifies` and `StatusNeverRestsAfterCommit` state this for every
store and every later sequence of such calls, including the writes of the actions
they dispatch.

The proxy itself outlives the commit. Subscribers are handed it (index.ts:51), and
any caller, an action included, may keep `store.state` from before the commit. A write
through such a kept reference still runs the trap (index.ts:46-54). The trap writes the discarded object,
tells every callback about the current plain state and resets the status to
`"resting"`. `WriteThroughKeptProxy` models this write, made by the client or by an
action. `KeptProxyWriteAfterCommitRests` and `CommitThenKeptWriteInAction` show that
it is the one way back to `"resting"`.

The constructor uses an `actions` or `mutations` option as given whenever it is an own
property of the options object (index.ts:22-27); a present option that is not a table
is left out. The state starts as `initialState` unless that is absent or falsy, in
which case it is `{}` (index.ts:45).

## Model

| member | source | states |
|---|---|---|
| JsValues.Lookup | index.ts:62-65 | a name is found exactly when the table holds a function under it; a missing key or a non-function value counts as missing |
| TinyStore.Construct | index.ts:9-57 | a new store is resting, wrapped in the proxy, with no callbacks and an empty log; each table is the one passed or empty; the state is the initial state passed or `{}`; the status/proxy invariant holds |
| TinyStore.Notifications | index.ts:106 | one notification per callback, in subscription order, each with the same data |
| TinyStore.ProcessCallbacks | index.ts:100-108 | with no callbacks: returns false and changes nothing; otherwise returns true and calls every callback exactly once, in subscription order, with the data given; nothing but the log changes and the earlier log is kept |
| TinyStore.Set | index.ts:45-56 | the written key holds the value and every other key is unchanged; through the proxy all callbacks are told once, in order, with the whole updated state and the status ends resting; without the proxy nobody is told and the status stays; always true |
| TinyStore.WriteThroughKeptProxy | index.ts:45-56 | while the proxy is still the state, a write through a kept reference is exactly a write to `store.state`; after a commit it leaves the state as it is, tells every callback once, in order, about the current state, resets the status to resting and does not restore the proxy |
| TinyStore.Commit | index.ts:77-90 | an unknown or non-function mutation returns false and changes nothing; a known one returns true, sets the status to mutation, makes the state exactly the mutation's result on the old state and payload, drops the proxy, and calls no callback |
| TinyStore.Perform | index.ts:70 | one commit or write an action makes, through `store.state` or a kept proxy reference, keeps the callbacks and tables, never restores the proxy, keeps the earlier log and adds only notifications (which ones: `RunStepsLog`) |
| TinyStore.RunSteps | index.ts:70 | an action's steps keep the callbacks and tables, never restore the proxy, keep the earlier log and add only notifications (which ones: `RunStepsLog`) |
| TinyStore.Dispatch | index.ts:60-74 | an unknown or non-function action returns false and changes nothing; a known one returns true, logs exactly one call of that action with the payload, and everything logged after it is a notification (which ones: `DispatchLog`) |
| TinyStore.Subscribe | index.ts:116-130 | a non-function returns false and changes nothing; a function returns true and is appended after the existing callbacks, which are kept; nothing else changes |
| StoreProperties.RunStepsMutationUnwrapped | index.ts:84-87 | every script of steps, kept-proxy writes included, keeps "mutation status means no proxy" |
| StoreProperties.RunStepsConsistent | index.ts:84-87 | steps of an action that write only to the current `store.state` preserve the status/proxy invariant |
| StoreProperties.ApplyMutationUnwrapped | index.ts:45-130 | every call, including a write through a kept proxy reference, keeps "mutation status means no proxy" and never restores the proxy |
| StoreProperties.RunMutationUnwrapped | index.ts:45-130 | any sequence of calls keeps "mutation status means no proxy", and a store without the proxy never gets it back |
| StoreProperties.ApplyConsistent | index.ts:45-130 | every call that writes only to the current `store.state`, itself and through the action it dispatches, also keeps "resting status means the proxy is the state" |
| StoreProperties.RunConsistent | index.ts:45-130 | any sequence of calls in which neither the client nor a dispatched action writes through a kept proxy reference preserves the full status/proxy invariant |
| StoreProperties.StatusNeverRestsAfterCommit | index.ts:84-87 | after a successful commit the proxy never returns, and unless the client or a dispatched action writes through a proxy reference kept from before the commit, the status is never resting again |
| StoreProperties.KeptProxyWriteAfterCommitRests | index.ts:46-54 | after a successful commit, a write through a kept proxy reference tells every callback about the unchanged current state and resets the status to resting, without restoring the proxy |
| StoreProperties.RunStepsUnwrappedSilent | index.ts:87 | without the proxy, an action's writes to `store.state` and its commits call no callback and leave the log as it was |
| StoreProperties.WriteAfterCommitIsSilent | index.ts:84-87 | a write to `store.state` right after a successful commit sets the key but calls no callback and leaves the status at mutation |
| StoreProperties.UnwrappedStoreNeverNotifies | index.ts:87 | once the proxy is gone, dispatches, commits, subscriptions and writes to `store.state`, by the client or by the actions dispatched, only ever add action calls to the log, never a notification |
| StoreProperties.RunStepsState | index.ts:47 | the state an action's steps leave equals the reference reading of the script: a known commit replaces the state, a write to `store.state` sets the key, and a write through a kept proxy reference sets it only while that proxy is still the state |
| StoreProperties.DispatchState | index.ts:66-73 | a dispatched action leaves the state its script's reference reading gives |
| StoreProperties.RunStepsStatus | index.ts:53 | the status an action's steps leave equals the reference reading: a known commit sets mutation and drops the proxy, a write to `store.state` through the proxy rests, a write through a kept proxy reference always rests, anything else keeps the status |
| StoreProperties.CommitThenKeptWriteInAction | index.ts:46-54 | an action that commits a known mutation and then writes through a proxy reference it kept ends resting without the proxy, with the committed state, and every callback told once about that state |
| StoreProperties.RunStepsLog | index.ts:46-54 | the log an action's steps leave is the earlier log followed by the notifications of the script's reference reading: a write to `store.state` tells every callback, in order, about the updated state while the proxy is the state and nobody after a commit; a write through a kept proxy reference always tells every callback, about the state after the write; a commit tells nobody |
| StoreProperties.DispatchLog | index.ts:66-73 | a dispatched action logs its own call with the payload, then exactly the notifications its script's reference reading gives from the store as it was |
| StoreProperties.DispatchStatus | index.ts:68-70 | a dispatched action runs with the status set to action: the status it leaves is what its steps produce starting from action |
| StoreProperties.DispatchEmptyScript | index.ts:68-73 | an action that does nothing leaves the status at action, the state untouched and exactly one call in the log |
| StoreProperties.InvocationsAppend | index.ts:70 | helper of `DispatchInvokesOnce`: the action calls recorded in a concatenated log are those of each part, in order |
| StoreProperties.InvocationsOfNotifications | index.ts:106 | a log of notifications records no action call |
| StoreProperties.DispatchInvokesOnce | index.ts:66-73 | dispatching a known action adds exactly one action call, that action with that payload, to the calls already recorded |
| StoreProperties.DispatchUnknownInvokesNothing | index.ts:62-65 | dispatching an unknown action records no action call |
| StoreProperties.SubscribeAllAppends | index.ts:128 | subscribing several functions appends them in order and changes nothing else |
| StoreProperties.SubscribersToldInOrder | index.ts:45-56 | after subscribing n functions to a new store, one write calls each exactly once, in subscription order, with the updated state, and leaves the store resting |
| StoreProperties.CounterWriteNotifies | index.ts:46-54 | on a counter store, `state.count = 5` tells the subscriber `{count: 5}` and ends resting |
| StoreProperties.CounterCommit | index.ts:84-89 | `commit("increment", 3)` on `{count: 0}` returns true and leaves `{count: 3}` |
| StoreProperties.CounterWriteAfterCommit | index.ts:87 | after that commit, `state.count = 99` tells no subscriber and the status stays at mutation |
| StoreProperties.CounterRefusals | index.ts:62-64 | `dispatch("doesNotExist")` and `subscribe(42)` return false and leave the store as it was |

## Left out

- Console output (`console.error`, `console.log`, `console.groupCollapsed`, `console.groupEnd`): diagnostics only, with no effect on the store.
- Asynchronous actions and the interleaving of their later commits: an action is a synchronous script of commits and writes run inside `dispatch`. An action cannot dispatch another action or subscribe, and what it does is fixed by its payload.
- Exceptions thrown by actions, mutations or callbacks, and their propagation.
- What a callback does when called: callbacks are opaque identifiers and their calls are only logged.
- Proxy behaviour beyond assigning a top-level key: deletes, nested-object writes and the `get` trap.
- Mutations that write through the proxy they are handed, or return that same proxy. A mutation is a pure function, and its result is always a fresh plain object, so it never keeps the wrapper.
- Lookups through the prototype chain. For example, `actions["toString"]` finds a function on a plain object; the model sees only the table's own keys.
- Options that are present but hold something other than a table. A `null` or `undefined` option makes later lookups throw (index.ts:62, index.ts:79); any other non-table value is left out.
- A truthy `initialState` that is not an object, which makes the `Proxy` constructor throw.
- JavaScript value typing: numbers are unbounded integers with no floating point, and objects and functions stored in the state are opaque references.
- A write through a reference to a plain state object that a later commit has replaced. Such a write neither changes `store.state` nor notifies anyone. Kept references are modelled only for the constructor's proxy.
- WriteThroughKeptProxy: does not track the contents of the discarded object it writes, because after a commit nothing but kept references can read that object.
- `processCallbacks` receives the proxy itself in the source; the model passes the state's contents at the time of the call.

=== FILE: js_values.dfy ===
/**
 The JavaScript values a store handles, reduced to what the store itself looks at:
 whether a value is a function (`typeof v === "function"`) and the top-level keys of
 the state object.
 */
module JsValues {

  /** A JavaScript value stored under a state key or passed as a payload. Objects,
      arrays and functions held inside the state are not looked into by the store;
      they are identified by a reference only. */
  datatype Value =
    | Undefined
    | Null
    | Boolean(b: bool)
    | Number(n: int)
    | Text(s: string)
    | Reference(id: nat)

  /** The state object: its own top-level keys and their values. */
  type State = map<string, Value>

  datatype Option<+T> = None | Some(value: T)

  /** A property value or an argument as `typeof` classifies it: a callable function,
      or any other value. */
  datatype Entry<+F> = Function(fn: F) | NonFunction(other: Value)

  /** A plain object used as a lookup table of named functions. */
  type Table<F> = map<string, Entry<F>>

  /** Reads `table[name]` and keeps it only when it is a function; a missing key reads
      as `undefined`, which is not a function. */
  function Lookup<F>(table: Table<F>, name: string): (r: Option<F>)
    ensures r.Some? <==> name in table && table[name].Function?
    ensures r.Some? ==> table[name] == Function(r.value)
  {
    if name in table && table[name].Function? then Some(table[name].fn) else None
  }
}

=== FILE: store.dfy ===
/**
 The store of index.ts as a deterministic state machine. Every public operation of
 the class is a pure transition from one `Store` record to the next, paired with the
 boolean the operation returns. What callbacks and actions observe is appended to
 the store's event log: one `Invoked` event per action call, one `Notified` event per
 callback call.
 */
module TinyStore {
  import opened JsValues

  /** The diagnostic status flag: "resting", "action" or "mutation". */
  datatype Status = Resting | InAction | InMutation

  /** A subscriber function, identified by a number; nothing stops the same function
      from being subscribed twice. */
  type CallbackId = nat

  /** One thing an action does with the store it is handed: commit a mutation, assign
      a top-level key of `store.state` as it is at that moment, or assign a key through
      a reference to the constructor's proxy that the action kept from earlier
      (`const st = store.state; store.commit(…); st.key = value`). */
  datatype Step =
    | CommitStep(mutation: string, payload: Value)
    | WriteStep(key: string, value: Value)
    | KeptWriteStep(key: string, value: Value)

  /** An action, run synchronously: given the payload, the steps it performs. */
  type Action = Value -> seq<Step>

  /** A mutation: the new state computed from the current state and the payload. */
  type Mutation = (State, Value) -> State

  /** What the outside world sees of a store: an action being called, or a callback
      being called with some data. */
  datatype Event =
    | Invoked(action: string, payload: Value)
    | Notified(callback: CallbackId, data: State)

  /** The fields of the class. `wrapped` records whether `state` is still the proxy
      built by the constructor, so that a key assignment goes through its `set` trap. */
  datatype Store = Store(
    state: State,
    wrapped: bool,
    actions: Table<Action>,
    mutations: Table<Mutation>,
    callbacks: seq<CallbackId>,
    status: Status,
    log: seq<Event>)

  /** The constructor's options; `None` is an option that was not passed. For
      `initialState`, `None` also stands for a falsy value, which `||` replaces by `{}`. */
  datatype Params = Params(
    actions: Option<Table<Action>>,
    mutations: Option<Table<Mutation>>,
    initialState: Option<State>)

  /** The store after an operation and the boolean the operation returned. */
  datatype Outcome = Outcome(store: Store, ok: bool)

  /** A successful commit, the only operation that sets the status to mutation, also
      discards the proxy; every reachable store keeps this. */
  predicate MutationUnwrapped(s: Store)
  {
    s.status == InMutation ==> !s.wrapped
  }

  /** The status rests only while `state` is the proxy. Only the proxy's trap resets
      the status, so this holds as long as nobody writes through a reference to the
      proxy kept from before a commit. */
  predicate Consistent(s: Store)
  {
    && MutationUnwrapped(s)
    && (s.status == Resting ==> s.wrapped)
  }

  /** `new Store(params)`. */
  function Construct(params: Params): (s: Store)
    ensures s.status == Resting && s.callbacks == [] && s.log == []
    ensures s.wrapped && Consistent(s)
    ensures params.actions.None? ==> s.actions == map[]
    ensures params.actions.Some? ==> s.actions == params.actions.value
    ensures params.mutations.None? ==> s.mutations == map[]
    ensures params.mutations.Some? ==> s.mutations == params.mutations.value
    ensures params.initialState.None? ==> s.state == map[]
    ensures params.initialState.Some? ==> s.state == params.initialState.value
  {
    Store(
      state := match params.initialState case Some(init) => init case None => map[],
      wrapped := true,
      actions := match params.actions case Some(a) => a case None => map[],
      mutations := match params.mutations case Some(m) => m case None => map[],
      callbacks := [],
      status := Resting,
      log := [])
  }

  /** One `Notified` event per callback, in subscription order, all with the same data. */
  function Notifications(callbacks: seq<CallbackId>, data: State): (events: seq<Event>)
    ensures |events| == |callbacks|
    ensures forall i :: 0 <= i < |callbacks| ==> events[i] == Notified(callbacks[i], data)
  {
    if callbacks == [] then []
    else [Notified(callbacks[0], data)] + Notifications(callbacks[1..], data)
  }

  /** `processCallbacks(data)`: false and no call when nobody subscribed; otherwise
      every callback is called once, in subscription order, with `data`. */
  function ProcessCallbacks(s: Store, data: State): (r: Outcome)
    ensures s.callbacks == [] ==> r == Outcome(s, false)
    ensures s.callbacks != [] ==> r.ok
    ensures r.store == s.(log := r.store.log)
    ensures |r.store.log| == |s.log| + |s.callbacks|
    ensures r.store.log[..|s.log|] == s.log
    ensures forall i :: 0 <= i < |s.callbacks| ==>
              r.store.log[|s.log| + i] == Notified(s.callbacks[i], data)
  {
    if |s.callbacks| == 0 then Outcome(s, false)
    else Outcome(s.(log := s.log + Notifications(s.callbacks, data)), true)
  }

  /** `store.state[key] = value`. Through the proxy the trap writes the key, calls the
      callbacks with the whole updated state and resets the status; on the plain
      object a successful commit leaves behind, the write is all that happens. */
  function Set(s: Store, key: string, value: Value): (r: Outcome)
    ensures r.ok
    ensures key in r.store.state && r.store.state[key] == value
    ensures forall k :: k != key ==> (k in r.store.state <==> k in s.state)
    ensures forall k :: k != key && k in s.state ==> r.store.state[k] == s.state[k]
    ensures r.store.wrapped == s.wrapped && r.store.callbacks == s.callbacks
    ensures r.store.actions == s.actions && r.store.mutations == s.mutations
    ensures s.wrapped ==> r.store.status == Resting
    ensures s.wrapped ==> r.store.log == s.log + Notifications(s.callbacks, r.store.state)
    ensures !s.wrapped ==> r.store.status == s.status && r.store.log == s.log
  {
    var written := s.(state := s.state[key := value]);
    if s.wrapped then
      var notified := ProcessCallbacks(written, written.state).store;
      Outcome(notified.(status := Resting), true)
    else
      Outcome(written, true)
  }

  /** `kept[key] = value`, where `kept` is a reference to the constructor's proxy taken
      before any commit: subscribers are handed it, and any caller can read
      `store.state` and hold on to it. While the proxy is still the state this is
      `Set`. After a commit the trap still runs: it writes the discarded object, which
      the state no longer shows, calls every callback with the current plain state and
      resets the status to resting. */
  function WriteThroughKeptProxy(s: Store, key: string, value: Value): (r: Outcome)
    ensures s.wrapped ==> r == Set(s, key, value)
    ensures !s.wrapped ==>
              && r.ok
              && r.store.state == s.state
              && r.store.status == Resting
              && r.store.log == s.log + Notifications(s.callbacks, s.state)
              && !r.store.wrapped
    ensures r.store.callbacks == s.callbacks
    ensures r.store.actions == s.actions && r.store.mutations == s.mutations
  {
    if s.wrapped then Set(s, key, value)
    else
      var notified := ProcessCallbacks(s, s.state).store;
      Outcome(notified.(status := Resting), true)
  }

  /** `commit(name, payload)`: an unknown name changes nothing; a known one sets the
      status to mutation and replaces the state by the mutation's result. That result
      is a plain value, so the proxy is gone, and no callback is called. */
  function Commit(s: Store, name: string, payload: Value): (r: Outcome)
    ensures Lookup(s.mutations, name).None? ==> r == Outcome(s, false)
    ensures Lookup(s.mutations, name).Some? ==>
              && r.ok
              && r.store.status == InMutation
              && r.store.state == Lookup(s.mutations, name).value(s.state, payload)
              && !r.store.wrapped
    ensures r.store.callbacks == s.callbacks && r.store.log == s.log
    ensures r.store.actions == s.actions && r.store.mutations == s.mutations
  {
    match Lookup(s.mutations, name)
    case None => Outcome(s, false)
    case Some(mutation) =>
      Outcome(s.(status := InMutation, state := mutation(s.state, payload), wrapped := false), true)
  }

  /** One step of an action, with the return value discarded as the actions do. */
  function Perform(s: Store, step: Step): (r: Store)
    ensures r.callbacks == s.callbacks && r.actions == s.actions && r.mutations == s.mutations
    ensures r.wrapped ==> s.wrapped
    ensures |s.log| <= |r.log| && r.log[..|s.log|] == s.log
    ensures forall i :: |s.log| <= i < |r.log| ==> r.log[i].Notified?
  {
    match step
    case CommitStep(name, payload) => Commit(s, name, payload).store
    case WriteStep(key, value) => Set(s, key, value).store
    case KeptWriteStep(key, value) => WriteThroughKeptProxy(s, key, value).store
  }

  /** The steps of an action, performed in order. Nothing a step does calls an action,
      so the events they add are all notifications. */
  function RunSteps(s: Store, steps: seq<Step>): (r: Store)
    ensures r.callbacks == s.callbacks && r.actions == s.actions && r.mutations == s.mutations
    ensures r.wrapped ==> s.wrapped
    ensures |s.log| <= |r.log| && r.log[..|s.log|] == s.log
    ensures forall i :: |s.log| <= i < |r.log| ==> r.log[i].Notified?
    decreases |steps|
  {
    if steps == [] then s
    else
      var next := Perform(s, steps[0]);
      var r := RunSteps(next, steps[1..]);
      assert r.log[..|s.log|] == r.log[..|next.log|][..|s.log|];
      assert forall i :: |s.log| <= i < |next.log| ==> r.log[i] == next.log[i];
      r
  }

  /** `dispatch(name, payload)`: an unknown name changes nothing; a known action is
      called exactly once with the payload, after the status is set to action, and
      dispatch returns true whatever the action did. */
  function Dispatch(s: Store, name: string, payload: Value): (r: Outcome)
    ensures Lookup(s.actions, name).None? ==> r == Outcome(s, false)
    ensures Lookup(s.actions, name).Some? ==>
              && r.ok
              && |s.log| < |r.store.log|
              && r.store.log[..|s.log| + 1] == s.log + [Invoked(name, payload)]
              && (forall i :: |s.log| < i < |r.store.log| ==> r.store.log[i].Notified?)
    ensures r.store.callbacks == s.callbacks
    ensures r.store.actions == s.actions && r.store.mutations == s.mutations
    ensures r.store.wrapped ==> s.wrapped
  {
    match Lookup(s.actions, name)
    case None => Outcome(s, false)
    case Some(action) =>
      var invoked := s.(status := InAction, log := s.log + [Invoked(name, payload)]);
      var r := RunSteps(invoked, action(payload));
      assert r.log[..|s.log| + 1] == invoked.log;
      Outcome(r, true)
  }

  /** `subscribe(callback)`: a non-function is refused and changes nothing; a function
      is appended after the callbacks already there. */
  function Subscribe(s: Store, callback: Entry<CallbackId>): (r: Outcome)
    ensures callback.NonFunction? ==> r == Outcome(s, false)
    ensures callback.Function? ==>
              && r.ok
              && |r.store.callbacks| == |s.callbacks| + 1
              && r.store.callbacks[..|s.callbacks|] == s.callbacks
              && r.store.callbacks[|s.callbacks|] == callback.fn
    ensures r.store == s.(callbacks := r.store.callbacks)
  {
    match callback
    case NonFunction(_) => Outcome(s, false)
    case Function(id) => Outcome(s.(callbacks := s.callbacks + [id]), true)
  }
}

=== FILE: store_properties.dfy ===
/**
 Properties that relate several calls of the store's operations: the status/proxy
 invariant, the permanent loss of notifications after the first successful commit,
 the state an action's script produces, how often an action is called, and the order
 in which subscribers are told about a write.
 */
module StoreProperties {
  import opened JsValues
  import opened TinyStore

  /** A call a client makes on a store. */
  datatype Op =
    | DispatchOp(action: string, payload: Value)
    | CommitOp(mutation: string, payload: Value)
    | SubscribeOp(callback: Entry<CallbackId>)
    | WriteOp(key: string, value: Value)
    | KeptProxyWriteOp(key: string, value: Value)
    | NotifyOp(data: State)

  function Apply(s: Store, op: Op): Outcome
  {
    match op
    case DispatchOp(name, payload) => Dispatch(s, name, payload)
    case CommitOp(name, payload) => Commit(s, name, payload)
    case SubscribeOp(callback) => Subscribe(s, callback)
    case WriteOp(key, value) => Set(s, key, value)
    case KeptProxyWriteOp(key, value) => WriteThroughKeptProxy(s, key, value)
    case NotifyOp(data) => ProcessCallbacks(s, data)
  }

  /** The store after a client's calls, made one after the other. */
  function Run(s: Store, ops: seq<Op>): Store
    decreases |ops|
  {
    if ops == [] then s else Run(Apply(s, ops[0]).store, ops[1..])
  }

  /** True when none of the calls invokes `processCallbacks` directly. */
  predicate NoDirectNotify(ops: seq<Op>)
  {
    forall i :: 0 <= i < |ops| ==> !ops[i].NotifyOp?
  }

  /** True when no step of an action's script writes through a kept proxy reference. */
  predicate NoKeptWriteStep(steps: seq<Step>)
  {
    forall i :: 0 <= i < |steps| ==> !steps[i].KeptWriteStep?
  }

  /** True when a call writes, directly or through the action it dispatches, only to
      `store.state` as it is at the time of the write, never through a proxy reference
      kept from earlier. */
  predicate WritesCurrentState(actions: Table<Action>, op: Op)
  {
    match op
    case KeptProxyWriteOp(_, _) => false
    case DispatchOp(name, payload) =>
      Lookup(actions, name).Some? ==> NoKeptWriteStep(Lookup(actions, name).value(payload))
    case _ => true
  }

  /** True when every call, and every action the calls dispatch, writes only to the
      current `store.state`. The action table never changes, so it is read from the
      store the calls start on. */
  predicate NoKeptProxyWrite(actions: Table<Action>, ops: seq<Op>)
  {
    forall i :: 0 <= i < |ops| ==> WritesCurrentState(actions, ops[i])
  }

  // ---------------------------------------------------------------------------
  // The status flag and the proxy
  // ---------------------------------------------------------------------------

  lemma {:induction false} RunStepsMutationUnwrapped(s: Store, steps: seq<Step>)
    requires MutationUnwrapped(s)
    ensures MutationUnwrapped(RunSteps(s, steps))
    decreases |steps|
  {
    if steps != [] {
      RunStepsMutationUnwrapped(Perform(s, steps[0]), steps[1..]);
    }
  }

  lemma {:induction false} RunStepsConsistent(s: Store, steps: seq<Step>)
    requires Consistent(s)
    requires NoKeptWriteStep(steps)
    ensures Consistent(RunSteps(s, steps))
    decreases |steps|
  {
    if steps != [] {
      assert !steps[0].KeptWriteStep?;
      assert NoKeptWriteStep(steps[1..]) by {
        forall i | 0 <= i < |steps[1..]| ensures !steps[1..][i].KeptWriteStep? {
          assert steps[1..][i] == steps[i + 1];
        }
      }
      RunStepsConsistent(Perform(s, steps[0]), steps[1..]);
    }
  }

  /** Every call, including a write through a kept proxy reference, keeps the status
      away from mutation while the proxy is there, and never restores the proxy. */
  lemma ApplyMutationUnwrapped(s: Store, op: Op)
    requires MutationUnwrapped(s)
    ensures MutationUnwrapped(Apply(s, op).store)
    ensures Apply(s, op).store.wrapped ==> s.wrapped
    ensures Apply(s, op).store.actions == s.actions
  {
    match op
    case DispatchOp(name, payload) =>
      if Lookup(s.actions, name).Some? {
        var invoked := s.(status := InAction, log := s.log + [Invoked(name, payload)]);
        RunStepsMutationUnwrapped(invoked, Lookup(s.actions, name).value(payload));
      }
    case _ =>
  }

  lemma {:induction false} RunMutationUnwrapped(s: Store, ops: seq<Op>)
    requires MutationUnwrapped(s)
    ensures MutationUnwrapped(Run(s, ops))
    ensures Run(s, ops).wrapped ==> s.wrapped
    decreases |ops|
  {
    if ops != [] {
      ApplyMutationUnwrapped(s, ops[0]);
      RunMutationUnwrapped(Apply(s, ops[0]).store, ops[1..]);
    }
  }

  /** Every call that writes only to the current `store.state`, itself and through the
      action it dispatches, keeps the status/proxy invariant. */
  lemma ApplyConsistent(s: Store, op: Op)
    requires Consistent(s)
    requires WritesCurrentState(s.actions, op)
    ensures Consistent(Apply(s, op).store)
  {
    match op
    case DispatchOp(name, payload) =>
      if Lookup(s.actions, name).Some? {
        var invoked := s.(status := InAction, log := s.log + [Invoked(name, payload)]);
        RunStepsConsistent(invoked, Lookup(s.actions, name).value(payload));
      }
    case _ =>
  }

  /** Every store reachable from a consistent one without a write through a kept
      proxy reference, by the client or by a dispatched action, keeps the invariant. */
  lemma {:induction false} RunConsistent(s: Store, ops: seq<Op>)
    requires Consistent(s)
    requires NoKeptProxyWrite(s.actions, ops)
    ensures Consistent(Run(s, ops))
    decreases |ops|
  {
    if ops != [] {
      ApplyConsistent(s, ops[0]);
      ApplyMutationUnwrapped(s, ops[0]);
      assert NoKeptProxyWrite(s.actions, ops[1..]) by {
        forall i | 0 <= i < |ops[1..]| ensures WritesCurrentState(s.actions, ops[1..][i]) {
          assert ops[1..][i] == ops[i + 1];
        }
      }
      RunConsistent(Apply(s, ops[0]).store, ops[1..]);
    }
  }

  /** After a successful commit the proxy never comes back, and unless the client or
      a dispatched action writes through a proxy reference kept from before the
      commit, the status is never resting again: only the discarded proxy's trap
      resets it. */
  lemma StatusNeverRestsAfterCommit(s: Store, name: string, payload: Value, ops: seq<Op>)
    requires Lookup(s.mutations, name).Some?
    ensures !Run(Commit(s, name, payload).store, ops).wrapped
    ensures NoKeptProxyWrite(s.actions, ops) ==> Run(Commit(s, name, payload).store, ops).status != Resting
  {
    RunMutationUnwrapped(Commit(s, name, payload).store, ops);
    if NoKeptProxyWrite(s.actions, ops) {
      RunConsistent(Commit(s, name, payload).store, ops);
    }
  }

  /** The one way back to resting after a commit: a write through a kept reference to
      the discarded proxy still runs its trap, which tells every callback about the
      current state, unchanged by the write, and resets the status. */
  lemma KeptProxyWriteAfterCommitRests(s: Store, name: string, payload: Value, key: string, value: Value)
    requires Lookup(s.mutations, name).Some?
    ensures var committed := Commit(s, name, payload).store;
      var after := WriteThroughKeptProxy(committed, key, value).store;
      && after.status == Resting
      && !after.wrapped
      && after.state == committed.state
      && after.log == s.log + Notifications(s.callbacks, committed.state)
  {
  }

  // ---------------------------------------------------------------------------
  // Notifications lost after the first commit
  // ---------------------------------------------------------------------------

  /** Without the proxy, an action's writes to `store.state` reach nobody. */
  lemma {:induction false} RunStepsUnwrappedSilent(s: Store, steps: seq<Step>)
    requires !s.wrapped
    requires NoKeptWriteStep(steps)
    ensures RunSteps(s, steps).log == s.log
    ensures !RunSteps(s, steps).wrapped
    decreases |steps|
  {
    if steps != [] {
      assert !steps[0].KeptWriteStep?;
      assert NoKeptWriteStep(steps[1..]) by {
        forall i | 0 <= i < |steps[1..]| ensures !steps[1..][i].KeptWriteStep? {
          assert steps[1..][i] == steps[i + 1];
        }
      }
      RunStepsUnwrappedSilent(Perform(s, steps[0]), steps[1..]);
    }
  }

  /** A write right after a successful commit changes the state but calls no callback
      and leaves the status at mutation, even when callbacks are subscribed. */
  lemma WriteAfterCommitIsSilent(s: Store, name: string, payload: Value, key: string, value: Value)
    requires Lookup(s.mutations, name).Some?
    ensures var after := Set(Commit(s, name, payload).store, key, value).store;
      && after.log == s.log
      && after.status == InMutation
      && after.state[key] == value
  {
  }

  /** Once the proxy is gone, no sequence of dispatches, commits, subscriptions or
      writes to `store.state` ever calls a callback again: every event it adds is an
      action call. */
  lemma {:induction false} UnwrappedStoreNeverNotifies(s: Store, ops: seq<Op>)
    requires !s.wrapped
    requires NoDirectNotify(ops)
    requires NoKeptProxyWrite(s.actions, ops)
    ensures |s.log| <= |Run(s, ops).log| && Run(s, ops).log[..|s.log|] == s.log
    ensures forall i :: |s.log| <= i < |Run(s, ops).log| ==> Run(s, ops).log[i].Invoked?
    decreases |ops|
  {
    if ops != [] {
      var next := Apply(s, ops[0]).store;
      assert |s.log| <= |next.log| && next.log[..|s.log|] == s.log
        && forall i :: |s.log| <= i < |next.log| ==> next.log[i].Invoked? by {
        match ops[0]
        case DispatchOp(name, payload) =>
          if Lookup(s.actions, name).Some? {
            var invoked := s.(status := InAction, log := s.log + [Invoked(name, payload)]);
            RunStepsUnwrappedSilent(invoked, Lookup(s.actions, name).value(payload));
          }
        case _ =>
          assert WritesCurrentState(s.actions, ops[0]);
      }
      assert !next.wrapped && next.actions == s.actions;
      assert NoDirectNotify(ops[1..]) && NoKeptProxyWrite(s.actions, ops[1..]) by {
        forall i | 0 <= i < |ops[1..]|
          ensures !ops[1..][i].NotifyOp? && WritesCurrentState(s.actions, ops[1..][i])
        {
          assert ops[1..][i] == ops[i + 1];
        }
      }
      UnwrappedStoreNeverNotifies(next, ops[1..]);
      var r := Run(s, ops);
      assert r.log[..|s.log|] == r.log[..|next.log|][..|s.log|];
      assert forall i :: |s.log| <= i < |next.log| ==> r.log[i] == next.log[i];
    }
  }

  // ---------------------------------------------------------------------------
  // The state an action produces
  // ---------------------------------------------------------------------------

  /** The state a script of steps produces, followed alongside whether the proxy is
      still there: a known mutation replaces the state and drops the proxy, an unknown
      one is skipped, a write to `store.state` sets one key, and a write through a kept
      proxy reference sets it only while that proxy is still the state. */
  function ScriptState(state: State, wrapped: bool, mutations: Table<Mutation>, steps: seq<Step>): State
    decreases |steps|
  {
    if steps == [] then state
    else
      match steps[0]
      case CommitStep(name, payload) =>
        (match Lookup(mutations, name)
         case Some(m) => ScriptState(m(state, payload), false, mutations, steps[1..])
         case None => ScriptState(state, wrapped, mutations, steps[1..]))
      case WriteStep(key, value) =>
        ScriptState(state[key := value], wrapped, mutations, steps[1..])
      case KeptWriteStep(key, value) =>
        ScriptState(if wrapped then state[key := value] else state, wrapped, mutations, steps[1..])
  }

  /** Running the steps on a store gives the state the reference reading gives: the
      notifications and the status play no part in what the state becomes. */
  lemma {:induction false} RunStepsState(s: Store, steps: seq<Step>)
    ensures RunSteps(s, steps).state == ScriptState(s.state, s.wrapped, s.mutations, steps)
    decreases |steps|
  {
    if steps != [] {
      RunStepsState(Perform(s, steps[0]), steps[1..]);
    }
  }

  /** A dispatched action leaves the state its script's reference reading gives. */
  lemma DispatchState(s: Store, name: string, payload: Value)
    requires Lookup(s.actions, name).Some?
    ensures Dispatch(s, name, payload).store.state
         == ScriptState(s.state, s.wrapped, s.mutations, Lookup(s.actions, name).value(payload))
  {
    var invoked := s.(status := InAction, log := s.log + [Invoked(name, payload)]);
    RunStepsState(invoked, Lookup(s.actions, name).value(payload));
  }

  /** The status a script of steps leaves, followed alongside whether the proxy is
      still there: a known commit sets mutation and drops the proxy, a write to
      `store.state` through the proxy rests, a write through a kept proxy reference
      always rests, and anything else leaves the status as it was. */
  function ScriptStatus(status: Status, wrapped: bool, mutations: Table<Mutation>, steps: seq<Step>): Status
    decreases |steps|
  {
    if steps == [] then status
    else
      match steps[0]
      case CommitStep(name, _) =>
        if Lookup(mutations, name).Some? then ScriptStatus(InMutation, false, mutations, steps[1..])
        else ScriptStatus(status, wrapped, mutations, steps[1..])
      case WriteStep(_, _) =>
        ScriptStatus(if wrapped then Resting else status, wrapped, mutations, steps[1..])
      case KeptWriteStep(_, _) =>
        ScriptStatus(Resting, wrapped, mutations, steps[1..])
  }

  lemma {:induction false} RunStepsStatus(s: Store, steps: seq<Step>)
    ensures RunSteps(s, steps).status == ScriptStatus(s.status, s.wrapped, s.mutations, steps)
    decreases |steps|
  {
    if steps != [] {
      RunStepsStatus(Perform(s, steps[0]), steps[1..]);
    }
  }

  /** A dispatched action runs with the status set to action: the status it leaves is
      the one its script's steps produce starting from action. */
  lemma DispatchStatus(s: Store, name: string, payload: Value)
    requires Lookup(s.actions, name).Some?
    ensures Dispatch(s, name, payload).store.status
         == ScriptStatus(InAction, s.wrapped, s.mutations, Lookup(s.actions, name).value(payload))
  {
    var invoked := s.(status := InAction, log := s.log + [Invoked(name, payload)]);
    RunStepsStatus(invoked, Lookup(s.actions, name).value(payload));
  }

  /** The notifications a script of steps produces, followed alongside the state and
      whether the proxy is still there: a write to `store.state` tells every callback
      about the updated state while the proxy is there and nobody otherwise; a write
      through a kept proxy reference always tells every callback, about the state as
      it is after the write; a commit tells nobody. */
  function ScriptLog(callbacks: seq<CallbackId>, state: State, wrapped: bool,
                     mutations: Table<Mutation>, steps: seq<Step>): seq<Event>
    decreases |steps|
  {
    if steps == [] then []
    else
      match steps[0]
      case CommitStep(name, payload) =>
        (match Lookup(mutations, name)
         case Some(m) => ScriptLog(callbacks, m(state, payload), false, mutations, steps[1..])
         case None => ScriptLog(callbacks, state, wrapped, mutations, steps[1..]))
      case WriteStep(key, value) =>
        (if wrapped then Notifications(callbacks, state[key := value]) else [])
          + ScriptLog(callbacks, state[key := value], wrapped, mutations, steps[1..])
      case KeptWriteStep(key, value) =>
        var written := if wrapped then state[key := value] else state;
        Notifications(callbacks, written) + ScriptLog(callbacks, written, wrapped, mutations, steps[1..])
  }

  /** Running the steps on a store adds exactly the notifications the reference
      reading gives, after the log already there. */
  lemma {:induction false} RunStepsLog(s: Store, steps: seq<Step>)
    ensures RunSteps(s, steps).log
         == s.log + ScriptLog(s.callbacks, s.state, s.wrapped, s.mutations, steps)
    decreases |steps|, 1
  {
    if steps != [] {
      match steps[0]
      case CommitStep(_, _) => CommitStepLog(s, steps);
      case WriteStep(_, _) => WriteStepLog(s, steps);
      case KeptWriteStep(_, _) => KeptWriteStepLog(s, steps);
    }
  }

  /** `RunStepsLog` for a script that starts with a commit, which logs nothing. */
  lemma {:induction false} CommitStepLog(s: Store, steps: seq<Step>)
    requires steps != [] && steps[0].CommitStep?
    ensures RunSteps(s, steps).log
         == s.log + ScriptLog(s.callbacks, s.state, s.wrapped, s.mutations, steps)
    decreases |steps|, 0
  {
    var next := Perform(s, steps[0]);
    RunStepsLog(next, steps[1..]);
    assert next.log == s.log;
  }

  /** `RunStepsLog` for a script that starts with a write to `store.state`. */
  lemma {:induction false} WriteStepLog(s: Store, steps: seq<Step>)
    requires steps != [] && steps[0].WriteStep?
    ensures RunSteps(s, steps).log
         == s.log + ScriptLog(s.callbacks, s.state, s.wrapped, s.mutations, steps)
    decreases |steps|, 0
  {
    var key, value := steps[0].key, steps[0].value;
    var next := Perform(s, steps[0]);
    RunStepsLog(next, steps[1..]);
    var head := if s.wrapped then Notifications(s.callbacks, s.state[key := value]) else [];
    var tail := ScriptLog(s.callbacks, s.state[key := value], s.wrapped, s.mutations, steps[1..]);
    assert next == Set(s, key, value).store;
    if !s.wrapped {
      assert next.log == s.log + head;
    }
    ScriptLogStep(s.callbacks, s.state, s.wrapped, s.mutations, steps);
    assert s.log + head + tail == s.log + (head + tail);
  }

  /** `RunStepsLog` for a script that starts with a write through a kept proxy reference. */
  lemma {:induction false} KeptWriteStepLog(s: Store, steps: seq<Step>)
    requires steps != [] && steps[0].KeptWriteStep?
    ensures RunSteps(s, steps).log
         == s.log + ScriptLog(s.callbacks, s.state, s.wrapped, s.mutations, steps)
    decreases |steps|, 0
  {
    var key, value := steps[0].key, steps[0].value;
    var next := Perform(s, steps[0]);
    RunStepsLog(next, steps[1..]);
    var written := if s.wrapped then s.state[key := value] else s.state;
    var head := Notifications(s.callbacks, written);
    var tail := ScriptLog(s.callbacks, written, s.wrapped, s.mutations, steps[1..]);
    assert next.log == s.log + head && next.state == written;
    ScriptLogStep(s.callbacks, s.state, s.wrapped, s.mutations, steps);
    assert s.log + head + tail == s.log + (head + tail);
  }

  /** One step of the reference reading for a write: the notifications the write
      itself produces, followed by those of the rest of the script. */
  lemma ScriptLogStep(callbacks: seq<CallbackId>, state: State, wrapped: bool,
                      mutations: Table<Mutation>, steps: seq<Step>)
    requires steps != [] && !steps[0].CommitStep?
    ensures steps[0].WriteStep? ==>
              var written := state[steps[0].key := steps[0].value];
              ScriptLog(callbacks, state, wrapped, mutations, steps)
              == (if wrapped then Notifications(callbacks, written) else [])
                 + ScriptLog(callbacks, written, wrapped, mutations, steps[1..])
    ensures steps[0].KeptWriteStep? ==>
              var written := if wrapped then state[steps[0].key := steps[0].value] else state;
              ScriptLog(callbacks, state, wrapped, mutations, steps)
              == Notifications(callbacks, written) + ScriptLog(callbacks, written, wrapped, mutations, steps[1..])
  {
  }

  /** A dispatched action logs its own call, then exactly the notifications its
      script's reference reading gives, starting from the store as it was. */
  lemma DispatchLog(s: Store, name: string, payload: Value)
    requires Lookup(s.actions, name).Some?
    ensures Dispatch(s, name, payload).store.log
         == s.log + [Invoked(name, payload)]
            + ScriptLog(s.callbacks, s.state, s.wrapped, s.mutations, Lookup(s.actions, name).value(payload))
  {
    var invoked := s.(status := InAction, log := s.log + [Invoked(name, payload)]);
    RunStepsLog(invoked, Lookup(s.actions, name).value(payload));
  }

  /** An action that keeps `store.state`, commits a known mutation and then writes
      through the kept reference ends resting without the proxy: the write leaves the
      committed state as it is, and every callback is told about that state. */
  lemma CommitThenKeptWriteInAction(s: Store, name: string, payload: Value,
                                    mutation: string, arg: Value, key: string, value: Value)
    requires Lookup(s.actions, name).Some?
    requires Lookup(s.actions, name).value(payload) == [CommitStep(mutation, arg), KeptWriteStep(key, value)]
    requires Lookup(s.mutations, mutation).Some?
    ensures var after := Dispatch(s, name, payload).store;
      var committed := Lookup(s.mutations, mutation).value(s.state, arg);
      && after.status == Resting
      && !after.wrapped
      && after.state == committed
      && after.log == s.log + [Invoked(name, payload)] + Notifications(s.callbacks, committed)
  {
    var invoked := s.(status := InAction, log := s.log + [Invoked(name, payload)]);
    var script := [CommitStep(mutation, arg), KeptWriteStep(key, value)];
    var committed := Perform(invoked, script[0]);
    var written := Perform(committed, script[1]);
    assert script[1..] == [KeptWriteStep(key, value)];
    assert RunSteps(committed, script[1..]) == RunSteps(written, []);
    assert Dispatch(s, name, payload).store == written;
  }

  /** An action whose script is empty leaves the store in the action status with its
      state untouched. */
  lemma DispatchEmptyScript(s: Store, name: string, payload: Value)
    requires Lookup(s.actions, name).Some?
    requires Lookup(s.actions, name).value(payload) == []
    ensures Dispatch(s, name, payload).store.status == InAction
    ensures Dispatch(s, name, payload).store.state == s.state
    ensures Dispatch(s, name, payload).store.log == s.log + [Invoked(name, payload)]
  {
  }

  // ---------------------------------------------------------------------------
  // How often actions are called
  // ---------------------------------------------------------------------------

  /** The action calls recorded in a log, in order. */
  function Invocations(log: seq<Event>): (calls: seq<Event>)
    ensures forall i :: 0 <= i < |calls| ==> calls[i].Invoked?
    ensures |calls| <= |log|
  {
    if log == [] then []
    else (if log[0].Invoked? then [log[0]] else []) + Invocations(log[1..])
  }

  lemma {:induction false} InvocationsAppend(a: seq<Event>, b: seq<Event>)
    ensures Invocations(a + b) == Invocations(a) + Invocations(b)
    decreases |a|
  {
    if a == [] {
      assert a + b == b;
    } else {
      assert (a + b)[0] == a[0];
      assert (a + b)[1..] == a[1..] + b;
      InvocationsAppend(a[1..], b);
      var head := if a[0].Invoked? then [a[0]] else [];
      assert Invocations(a + b) == head + (Invocations(a[1..]) + Invocations(b));
    }
  }

  lemma {:induction false} InvocationsOfNotifications(log: seq<Event>)
    requires forall i :: 0 <= i < |log| ==> log[i].Notified?
    ensures Invocations(log) == []
    decreases |log|
  {
    if log != [] {
      InvocationsOfNotifications(log[1..]);
    }
  }

  /** Dispatching a known action calls it exactly once, with the payload given, and
      calls no other action. */
  lemma DispatchInvokesOnce(s: Store, name: string, payload: Value)
    requires Lookup(s.actions, name).Some?
    ensures Invocations(Dispatch(s, name, payload).store.log)
         == Invocations(s.log) + [Invoked(name, payload)]
  {
    var log := Dispatch(s, name, payload).store.log;
    var n := |s.log| + 1;
    assert log == log[..n] + log[n..];
    InvocationsAppend(log[..n], log[n..]);
    InvocationsAppend(s.log, [Invoked(name, payload)]);
    InvocationsOfNotifications(log[n..]);
  }

  /** Dispatching an unknown action calls nothing. */
  lemma DispatchUnknownInvokesNothing(s: Store, name: string, payload: Value)
    requires Lookup(s.actions, name).None?
    ensures Invocations(Dispatch(s, name, payload).store.log) == Invocations(s.log)
  {
  }

  // ---------------------------------------------------------------------------
  // Subscribers and the order they are told in
  // ---------------------------------------------------------------------------

  /** Subscribes the given functions one after the other. */
  function SubscribeAll(s: Store, ids: seq<CallbackId>): Store
    decreases |ids|
  {
    if ids == [] then s else SubscribeAll(Subscribe(s, Function(ids[0])).store, ids[1..])
  }

  lemma {:induction false} SubscribeAllAppends(s: Store, ids: seq<CallbackId>)
    ensures SubscribeAll(s, ids) == s.(callbacks := s.callbacks + ids)
    decreases |ids|
  {
    if ids != [] {
      SubscribeAllAppends(Subscribe(s, Function(ids[0])).store, ids[1..]);
      assert s.callbacks + [ids[0]] + ids[1..] == s.callbacks + ids;
    }
  }

  /** Subscribing n functions to a new store and then writing one key through the
      proxy calls each of them exactly once, in subscription order, with the updated
      state, and leaves the store resting. */
  lemma SubscribersToldInOrder(params: Params, ids: seq<CallbackId>, key: string, value: Value)
    ensures var after := Set(SubscribeAll(Construct(params), ids), key, value).store;
      && |after.log| == |ids|
      && (forall i :: 0 <= i < |ids| ==> after.log[i] == Notified(ids[i], after.state))
      && after.status == Resting
      && after.state[key] == value
  {
    SubscribeAllAppends(Construct(params), ids);
  }

  // ---------------------------------------------------------------------------
  // Worked examples
  // ---------------------------------------------------------------------------

  /** Adds the payload to the number under "count"; a missing or non-numeric operand
      counts as 0. */
  function Increment(state: State, payload: Value): State
  {
    var count := if "count" in state && state["count"].Number? then state["count"].n else 0;
    var amount := if payload.Number? then payload.n else 0;
    state["count" := Number(count + amount)]
  }

  function CounterStore(): Store
  {
    Construct(Params(None, Some(map["increment" := Function(Increment)]), Some(map["count" := Number(0)])))
  }

  /** A subscriber of a fresh counter store is told about `state.count = 5` with the
      state `{count: 5}`, and the store ends resting. */
  lemma CounterWriteNotifies()
    ensures var after := Set(Subscribe(CounterStore(), Function(1)).store, "count", Number(5)).store;
      && after.log == [Notified(1, map["count" := Number(5)])]
      && after.status == Resting
  {
    var s := Subscribe(CounterStore(), Function(1)).store;
    assert s.state["count" := Number(5)] == map["count" := Number(5)];
  }

  /** `commit("increment", 3)` on the counter store returns true and leaves `{count: 3}`. */
  lemma CounterCommit()
    ensures Commit(CounterStore(), "increment", Number(3)).ok
    ensures Commit(CounterStore(), "increment", Number(3)).store.state == map["count" := Number(3)]
  {
  }

  /** After that commit, `state.count = 99` reaches no subscriber and the status stays
      at mutation. */
  lemma CounterWriteAfterCommit()
    ensures var subscribed := Subscribe(CounterStore(), Function(1)).store;
      var after := Set(Commit(subscribed, "increment", Number(3)).store, "count", Number(99)).store;
      && after.log == []
      && after.status == InMutation
      && after.state == map["count" := Number(99)]
  {
  }

  /** `dispatch("doesNotExist")` and `subscribe(42)` return false and change nothing. */
  lemma CounterRefusals()
    ensures Dispatch(CounterStore(), "doesNotExist", Undefined) == Outcome(CounterStore(), false)
    ensures Subscribe(CounterStore(), NonFunction(Number(42))) == Outcome(CounterStore(), false)
  {
  }
}
